=== FILE: README.md ===
# PIXIE runtime overlay, modelled in Dafny

PIXIE builds Python C-extensions that embed their LLVM bitcode and export
each function in several CPU-feature variants. When such an extension is
imported, its `main` runs. `main` turns the packaged payload dictionary
(`__PIXIE__` plus `__PIXIE_assemblers__`) into the module's `__PIXIE__`
overlay, the table of bound exports. The overlay also carries a
`specialize` closure. That closure asks the PIXIE compiler to rebuild the
library for an exact CPU. The result is a `<module>_pixie_specialized`
library with the same uuid. The next `main` adopts that library in place
of the generic one.

The model covers `pixie/overlay.py`:

- `wrappers.dfy` (`Wrappers`): `Option` and `Result`. Python's `None` maps to `None`, and a raised exception maps to `Failure`.
- `host.dfy` (`Host`): the foreign collaborators, as values. A ctypes function pointer is `FnPtr`. `RawAddress` is its `c_void_p` cast. `Lookup` is the shared object's symbol table. A ctypes prototype and a callable binding are kept opaque.
- `manifest.dfy` (`Manifest`): the payload and overlay dictionaries, `add_variant` and `create_base_payload`. A packaged record (`Entry`) and a bound record (`BoundEntry`) are separate types. The Python code reuses one dict whose fields change type during binding.
- `binding.dfy` (`Binding`): the binding pass. `Bind` is the functional specification, and `BoundFrom` is an independent description of a correctly bound record. The `...Loop` methods follow the source's nested loops and are proved to agree with `Bind`.
- `posixpath.dfy` (`PosixPath`): `os.path.split(path)[0]`, used for the output directory. POSIX rules.
- `specialization.dfy` (`Specialization`): target resolution, the export table copy, and the compile request that `specialize` builds.
- `loader.dfy` (`Loader`): `main`. It decides between the specialized path, the reverted path and the generic path, and performs the generic load.
- `properties.dfy` (`OverlayProperties`): lemmas that relate several operations. The main ones: the specialization round trip, fall-back equivalence, name agreement, and builder/loader agreement.

The host CPU name, the `importlib` search, the symbol lookup and the bitcode
memory read are all parameters. Every variant is bound. The source selects
no variant by CPU features, and neither does the model.

## Model

| member | source | states |
|---|---|---|
| Manifest.AddVariant | pixie/overlay.py:156-171 | A new record has no address and no callable. A missing variant map becomes empty. A given one is kept as is. The ctypes string, symbol, baseline, module, source file and metadata are copied verbatim. |
| Manifest.CreateBasePayload | pixie/overlay.py:174-196 | A fresh payload has no symbols, no uuid, no bitcode, no linkage and no `specialize` entry. It is not specialized, has the placeholder header, and ships the source of exactly the five assembler functions. |
| Host.RawAddress | pixie/overlay.py:135 | The signature record's address is the pointer's integer value. It is `None` exactly for a null pointer. `Binding.BindEntry` and `BoundFrom` apply it to the pointer the loader returns. |
| Binding.ResolvesIffSymbolsFound | pixie/overlay.py:134-144 | A record can be bound exactly when the loader finds every symbol it names. |
| Binding.UnresolvedEmptyIffAllResolve | pixie/overlay.py:128-148 | No symbol of the table is missing exactly when every record of the table can be bound. |
| Binding.BindVariants | pixie/overlay.py:138-148 | The rebuilt `feature_variants` map has the same keys. Each entry keeps its symbol string, its address is the loader's pointer for that symbol, and its callable is the record's prototype at that pointer. |
| Binding.BindEntry | pixie/overlay.py:129-148 | The bound record satisfies `BoundFrom`: address = cast of lookup(symbol); callable and variants bound from the same lookups; every other field kept. |
| Binding.Bind | pixie/overlay.py:128-148 | Binding succeeds exactly when every record resolves. On failure it reports exactly the set of missing symbols. On success python names and signatures are preserved and every record is `BoundFrom` its packaged record. |
| Binding.BoundFromIsFunctional | pixie/overlay.py:128-148 | Two records that both satisfy `BoundFrom` for the same packaged record and lookup are equal. |
| Binding.BoundFromIsBindEntry | pixie/overlay.py:128-148 | Any record satisfying `BoundFrom` is the one `BindEntry` computes. |
| Binding.BindVariantsLoop | pixie/overlay.py:141-148 | The variant loop, in any key order, succeeds exactly when every variant symbol resolves and then equals `BindVariants`. When it stops, it names a variant symbol the loader lacks. |
| Binding.BindEntryLoop | pixie/overlay.py:129-148 | The loop body for one record succeeds exactly when the record resolves, and then equals `BindEntry`. Otherwise it names one of the record's missing symbols. When the record's own symbol is missing, that symbol is the one named, because line 134 looks it up before any variant at line 144. |
| Binding.BindOverloadsLoop | pixie/overlay.py:129-148 | The loop over the signatures of one name binds each signature as `BindEntry` does, or names a missing symbol of one of them. |
| Binding.BindTableLoop | pixie/overlay.py:128-148 | The nested loops as written, taking keys in any order, succeed exactly when every record resolves and then bind every record as `BindEntry` does. When they stop early, the symbol they name is one of the table's and the loader lacks it. |
| Binding.BindAsWritten | pixie/overlay.py:128-148 | The loops as written agree with `Bind`: same success condition, same table. The symbol they stop at is one that `Bind` reports as unresolved. |
| PosixPath.LastSlashEnd | pixie/overlay.py:50 | The split point ends in a slash, if non-zero. No slash follows it. |
| PosixPath.StripTrailingSlashes | pixie/overlay.py:50 | The result is a prefix that does not end in a slash, and only slashes were removed. |
| PosixPath.DirName | pixie/overlay.py:50 | The output directory is a prefix of the path up to its last slash and differs from that prefix only by trailing slashes. It keeps that prefix whole when the prefix is only slashes, and otherwise ends in a character other than a slash. It is empty exactly when the path has no slash. Together these satisfy `IsHead`. |
| PosixPath.HeadIsUnique | pixie/overlay.py:50 | `IsHead` admits exactly one head per path, so `DirName`'s contract fixes the output directory completely. |
| Specialization.ExportEntries | pixie/overlay.py:56-60 | There is one export entry per (python name, signature) pair, with that record's symbol name, and nothing else. Two entries for the same pair are equal. |
| Specialization.SpecializeRequest | pixie/overlay.py:32-76 | The request names the library `<module>_pixie_specialized`. It passes the current uuid unchanged, uses the current bitcode as the only `self` unit, and copies the export table under `embed_dso`. It sets no extra target features and builds a Python C-extension. The CPU and features are the resolved target, and the output directory is the head of the module's file path. |
| Specialization.InvokeSpecialize | pixie/overlay.py:150 | Calling the overlay's `specialize` works exactly when a generic load installed it. The request carries the overlay's uuid and is named after the closure's module. |
| Specialization.ResolveTargetIsStable | pixie/overlay.py:33-42 | Resolving a resolved, non-`host` target again, with its features given explicitly, returns the same target on any host. |
| Specialization.ResolveTargetHostIndependence | pixie/overlay.py:33-42 | Only `'host'` consults the host CPU name, and it then yields that name. Any other CPU name passes through unchanged. Features never depend on the host. Absent features resolve to the empty tuple, and given features pass through unchanged. |
| Specialization.SpecializedName | pixie/overlay.py:89 | The name `main` searches is the module name followed by `_pixie_specialized`. It is never the module name itself. `specialize` uses the same function at line 63, and `SpecializedNameInjective` shows that distinct modules never share a name. |
| Specialization.SpecializedNameInjective | pixie/overlay.py:63 | Distinct module names give distinct specialized library names. |
| Loader.GetBitcode | pixie/overlay.py:14-25 | The bitcode is read when both the size and the data accessor resolve, and comes from those two pointers. Otherwise the failure names one missing accessor. When the size accessor is missing, it is the one reported, whether or not the data accessor resolves. |
| Loader.GenericLoad | pixie/overlay.py:118-153 | The generic load succeeds exactly when five things hold: `address_of_symbol` is shipped if any signature exists; every record resolves; `get_bitcode` is shipped; both bitcode accessors resolve; `specialize` is shipped. On success, shape and records are bound as in `Bind`. The uuid, specialized flag, header and linkage are kept. The bitcode is the read bytes, and `specialize` is bound to the module. When several steps would fail, the error is the first one in source order: the `address_of_symbol` key (line 134), the missing symbols (lines 134 and 144), the `get_bitcode` key (line 149), the bitcode accessor that `get_bitcode` lacks (lines 18 and 21), then the `specialize` key (line 150). |
| Loader.Main | pixie/overlay.py:87-153 | The specialized module is adopted, marked specialized and with no warning of this `main`'s own, exactly when it exists and its uuid equals the payload's. A uuid mismatch makes this `main` emit exactly one warning of its own (line 116). In every non-adopting case the outcome is the generic load. |
| OverlayProperties.MismatchBehavesAsAbsent | pixie/overlay.py:109-116 | With a stale specialized module the outcome equals the outcome with no specialized module. The only difference is one warning of this `main`'s own. |
| OverlayProperties.MainConsultsOnlySpecializedName | pixie/overlay.py:89-96 | The load depends on the module search only at `<module>_pixie_specialized`. |
| OverlayProperties.ExportsNamePackagedSymbols | pixie/overlay.py:56-60 | The export table copied from a bound table equals the table of packaged (name, symbol, signature) triples. |
| OverlayProperties.GenericOverlayRequestsMatchingLibrary | pixie/overlay.py:56-72 | After a generic load, `specialize` requests exactly the name the loader searches. The request carries the payload's uuid and the payload's export table. |
| OverlayProperties.SpecializationIsAdopted | pixie/overlay.py:98-108 | Once the requested library exists with the passed-on uuid, the next load of the same payload adopts it. This `main` emits no warning of its own, and the overlay is marked specialized. |
| OverlayProperties.RespecializingAdoptedOverlay | pixie/overlay.py:103-104 | After adoption, `specialize` belongs to the specialized module. It then requests `<module>_pixie_specialized_pixie_specialized`. This module's own `main` does not search that name. Importing `<module>_pixie_specialized` at line 94 runs that module's own `main`, which does search it at line 89. So a re-specialized library carrying the same uuid is reached through that chained import. |
| OverlayProperties.BasePayloadLoads | pixie/overlay.py:174-183 | A fresh payload loads exactly when the bitcode accessors resolve. The overlay is empty, unstamped and unspecialized. |
| OverlayProperties.UnstampedPayloadAdoptsUnstamped | pixie/overlay.py:100-102 | A payload without a uuid adopts any specialized module that also lacks one, because the uuids are compared with `==`. |
| OverlayProperties.AddVariantBinds | pixie/overlay.py:156-171 | An `add_variant` record binds to a record that keeps every packaged field. Its address and callable come from the loader, and it keeps the given variant keys, or none. |

Behaviour of `pixie/overlay.py` worth knowing when reading the model:
- The code binds every feature variant. It selects none by CPU features.
- `is_specialized` is set when `main` adopts the specialized module (line 104). `specialize` passes no `is_specialized` value to `PIXIECompiler` (lines 64-73).
- A missing symbol surfaces as ctypes' `AttributeError`, modelled as `UnresolvedSymbols`.
- `add_variant` raises no error for a duplicate variant. Nothing freezes the payload.

A detail the types make visible: a bound variant's `address` is the ctypes function pointer itself. The signature record's `address` is that pointer's integer cast, which is `None` for a null pointer.

## Left out

- Binding.Bind: reports the set of every unresolved symbol, because maps have no order. The source raises `AttributeError` on the first one in dict insertion order. `Binding.BindTableLoop` takes keys in an arbitrary order and reports one missing symbol.
- Specialization.ExportEntries: the export table is a set. The source calls `add_symbol` in dict insertion order, and that order is not kept, because maps have no order. Each entry still appears exactly once.
- Opening the shared object with `ctypes.CDLL` (line 119). It is I/O, and its `OSError` is not modelled.
- The raw memory copy in `get_bitcode` (line 24). It is a parameter (`BitcodeReader`) of the two accessor pointers.
- `exec` of the assembler sources (lines 123-126). Only the presence of the `address_of_symbol`, `get_bitcode` and `specialize` keys is modelled. Each source text is taken to define the function of the same name in `pixie/overlay.py`.
- `eval` of the ctypes prototype string (lines 131-133). It is an opaque `Prototype` of the string, and its failures are not modelled.
- Loader.Main: `warnings` lists only the warning this `main` emits at line 116. The import at line 94 runs the imported module's own `main`, and the warnings and prints of that run belong to the `ModuleFinder` abstraction.
- `importlib.import_module` (line 94). It is a `ModuleFinder` parameter that returns the found module's `__PIXIE__`. Exceptions other than `ImportError`, and a module without `__PIXIE__`, are not modelled.
- `llvm.get_host_cpu_name()` (line 36). It is a parameter.
- `PIXIECompiler(...).compile()` (lines 64-74). Only the request it receives is modelled.
- Object identity and in-place mutation. In the source, `obj.__PIXIE__` becomes the specialized module's own dict, so setting `is_specialized` also marks that module. A failed generic load leaves the payload dict partly rewritten. Values in the model cannot alias.
- The `print` calls, `bootstrap` (which references an undefined global) and the empty `get_nil`.
- Windows path rules for `os.path.split`. Only POSIX rules are modelled.
- `pixie/tests/test_pixie_different_modules.py`. It is a JIT compilation and timing test, with no sequential logic to state.

=== FILE: binding.dfy ===
/** The binding pass of the loader: every signature record and every one of
    its feature variants is resolved against the loaded shared object. All
    variants are bound; none is selected by CPU features. */
module Binding {
  import opened Wrappers
  import opened Host
  import opened Manifest

  /** Every symbol name a packaged record asks the loader for. */
  function RecordSymbols(e: Entry): set<string>
  {
    {e.symbol} + set v | v in e.featureVariants :: e.featureVariants[v]
  }

  /** Every symbol name a packaged table asks the loader for. */
  function TableSymbols(t: Table<Entry>): set<string>
  {
    set n, g, x | n in t && g in t[n] && x in RecordSymbols(t[n][g]) :: x
  }

  /** The loader finds the record's own symbol and every variant's symbol. */
  predicate Resolves(e: Entry, lookup: Lookup)
  {
    && lookup(e.symbol).Some?
    && forall v :: v in e.featureVariants ==> lookup(e.featureVariants[v]).Some?
  }

  lemma ResolvesIffSymbolsFound(e: Entry, lookup: Lookup)
    ensures Resolves(e, lookup) <==> forall x :: x in RecordSymbols(e) ==> lookup(x).Some?
  {
    if !Resolves(e, lookup) && lookup(e.symbol).Some? {
      var v :| v in e.featureVariants && lookup(e.featureVariants[v]).None?;
      assert e.featureVariants[v] in RecordSymbols(e);
    }
  }

  /** Independent description of a correctly bound record: the prototype is
      the evaluated ctypes string, the record's address is the integer cast
      of the pointer the loader returns for its symbol, every variant keeps
      its key and symbol and gets the loader's pointer, every callable is the
      prototype applied to that pointer, and every other field is copied. */
  ghost predicate BoundFrom(e: Entry, b: BoundEntry, lookup: Lookup)
  {
    && Resolves(e, lookup)
    && b.ctypesCfunctype == Prototype(e.ctypesCfunctype)
    && b.symbol == e.symbol
    && b.sourceModule == e.sourceModule
    && b.sourceFile == e.sourceFile
    && b.baselineFeature == e.baselineFeature
    && b.metadata == e.metadata
    && b.address == RawAddress(lookup(e.symbol).value)
    && b.cfunc == CFunc(b.ctypesCfunctype, lookup(e.symbol).value)
    && b.featureVariants.Keys == e.featureVariants.Keys
    && forall v :: v in e.featureVariants ==>
         && b.featureVariants[v].symbol == e.featureVariants[v]
         && b.featureVariants[v].address == lookup(e.featureVariants[v]).value
         && b.featureVariants[v].cfunc == CFunc(b.ctypesCfunctype, b.featureVariants[v].address)
  }

  /** Two tables have the same python names and, per name, the same signatures. */
  ghost predicate SameShape<R, S>(t: Table<R>, u: Table<S>)
  {
    && t.Keys == u.Keys
    && forall n :: n in t ==> t[n].Keys == u[n].Keys
  }

  /** One bound variant `{symbol, address, cfunc}`. */
  function BindVariant(proto: Prototype, symbol: string, ptr: FnPtr): VariantBinding
  {
    VariantBinding(symbol, ptr, CFunc(proto, ptr))
  }

  /** The rebuilt `feature_variants` map of one record. */
  function BindVariants(proto: Prototype, variants: map<string, string>, lookup: Lookup): (r: map<string, VariantBinding>)
    requires forall v :: v in variants ==> lookup(variants[v]).Some?
    ensures r.Keys == variants.Keys
    ensures forall v :: v in variants ==>
      r[v].symbol == variants[v] && r[v].address == lookup(variants[v]).value
      && r[v].cfunc == CFunc(proto, r[v].address)
  {
    map v | v in variants :: BindVariant(proto, variants[v], lookup(variants[v]).value)
  }

  /** The body of the loader's inner loop for one signature record. */
  function BindEntry(e: Entry, lookup: Lookup): (b: BoundEntry)
    requires Resolves(e, lookup)
    ensures BoundFrom(e, b, lookup)
  {
    var proto := Prototype(e.ctypesCfunctype);
    var ptr := lookup(e.symbol).value;
    BoundEntry(proto, e.symbol, e.sourceModule, e.sourceFile, RawAddress(ptr),
               CFunc(proto, ptr), BindVariants(proto, e.featureVariants, lookup),
               e.baselineFeature, e.metadata)
  }

  /** The loader finds every symbol of every record of the table. */
  predicate AllResolve(t: Table<Entry>, lookup: Lookup)
  {
    forall n, g :: n in t && g in t[n] ==> Resolves(t[n][g], lookup)
  }

  /** Every record of a fully resolvable table, bound. */
  function BindAll(t: Table<Entry>, lookup: Lookup): Table<BoundEntry>
    requires AllResolve(t, lookup)
  {
    map n | n in t :: map g | g in t[n] :: BindEntry(t[n][g], lookup)
  }

  /** The symbols of the table that the loader cannot find. */
  function Unresolved(t: Table<Entry>, lookup: Lookup): set<string>
  {
    set x | x in TableSymbols(t) && lookup(x).None?
  }

  lemma UnresolvedEmptyIffAllResolve(t: Table<Entry>, lookup: Lookup)
    ensures Unresolved(t, lookup) == {} <==>
      forall n, g :: n in t && g in t[n] ==> Resolves(t[n][g], lookup)
  {
    if Unresolved(t, lookup) == {} {
      forall n, g | n in t && g in t[n]
        ensures Resolves(t[n][g], lookup)
      {
        ResolvesIffSymbolsFound(t[n][g], lookup);
        forall x | x in RecordSymbols(t[n][g])
          ensures lookup(x).Some?
        {
          assert x in TableSymbols(t) by {
            assert n in t && g in t[n] && x in RecordSymbols(t[n][g]);
          }
          assert x !in Unresolved(t, lookup);
        }
      }
    } else {
      var x :| x in Unresolved(t, lookup);
      var n, g :| n in t && g in t[n] && x in RecordSymbols(t[n][g]);
      ResolvesIffSymbolsFound(t[n][g], lookup);
    }
  }

  /** The whole binding pass over `symbols`: it fails with the set of missing
      symbols when any lookup fails, and otherwise binds every record. */
  function Bind(t: Table<Entry>, lookup: Lookup): (r: Result<Table<BoundEntry>, LoadError>)
    ensures r.Success? <==> forall n, g :: n in t && g in t[n] ==> Resolves(t[n][g], lookup)
    ensures r.Failure? ==> r.error.UnresolvedSymbols? && r.error.names != {}
    ensures r.Failure? ==> forall x :: x in r.error.names <==> x in TableSymbols(t) && lookup(x).None?
    ensures r.Success? ==> SameShape(t, r.value)
    ensures r.Success? ==> forall n, g :: n in t && g in t[n] ==> BoundFrom(t[n][g], r.value[n][g], lookup)
  {
    UnresolvedEmptyIffAllResolve(t, lookup);
    var missing := Unresolved(t, lookup);
    if missing != {} then
      Failure(UnresolvedSymbols(missing))
    else
      Success(BindAll(t, lookup))
  }

  /** A bound record is determined by the packaged record and the loader:
      `BoundFrom` is a specification with exactly one solution. */
  lemma {:induction false} BoundFromIsFunctional(e: Entry, b1: BoundEntry, b2: BoundEntry, lookup: Lookup)
    requires BoundFrom(e, b1, lookup) && BoundFrom(e, b2, lookup)
    ensures b1 == b2
  {
    assert b1.featureVariants == b2.featureVariants by {
      forall v | v in b1.featureVariants
        ensures b1.featureVariants[v] == b2.featureVariants[v]
      {
        assert v in e.featureVariants;
      }
    }
  }

  /** `BindEntry` is the only binding of a record that `BoundFrom` admits. */
  lemma BoundFromIsBindEntry(e: Entry, b: BoundEntry, lookup: Lookup)
    requires BoundFrom(e, b, lookup)
    ensures b == BindEntry(e, lookup)
  {
    BoundFromIsFunctional(e, b, BindEntry(e, lookup), lookup);
  }

  /** The loader's loop over one record's `feature_variants`, taking the
      keys in any order; it stops at the first symbol the loader lacks. */
  method BindVariantsLoop(proto: Prototype, variants: map<string, string>, lookup: Lookup)
    returns (r: Result<map<string, VariantBinding>, string>)
    ensures r.Success? <==> forall v :: v in variants ==> lookup(variants[v]).Some?
    ensures r.Success? ==> r.value == BindVariants(proto, variants, lookup)
    ensures r.Failure? ==> r.error in variants.Values && lookup(r.error).None?
  {
    var tmp: map<string, VariantBinding> := map[];
    var todo := variants.Keys;
    while todo != {}
      invariant todo <= variants.Keys
      invariant tmp.Keys == variants.Keys - todo
      invariant forall v :: v in tmp ==> lookup(variants[v]).Some?
      invariant forall v :: v in tmp ==> tmp[v] == BindVariant(proto, variants[v], lookup(variants[v]).value)
      decreases todo
    {
      var v :| v in todo;
      var ptr := lookup(variants[v]);
      if ptr.None? {
        return Failure(variants[v]);
      }
      tmp := tmp[v := BindVariant(proto, variants[v], ptr.value)];
      todo := todo - {v};
    }
    return Success(tmp);
  }

  /** The loader's loop body for one signature record: the record's own
      symbol first, then its variants. */
  method BindEntryLoop(e: Entry, lookup: Lookup) returns (r: Result<BoundEntry, string>)
    ensures r.Success? <==> Resolves(e, lookup)
    ensures r.Success? ==> r.value == BindEntry(e, lookup)
    ensures r.Failure? ==> r.error in RecordSymbols(e) && lookup(r.error).None?
    ensures lookup(e.symbol).None? ==> r == Failure(e.symbol)
  {
    var proto := Prototype(e.ctypesCfunctype);
    var ptr := lookup(e.symbol);
    if ptr.None? {
      return Failure(e.symbol);
    }
    var variants := BindVariantsLoop(proto, e.featureVariants, lookup);
    if variants.Failure? {
      var v :| v in e.featureVariants && e.featureVariants[v] == variants.error;
      return Failure(variants.error);
    }
    return Success(BoundEntry(proto, e.symbol, e.sourceModule, e.sourceFile, RawAddress(ptr.value),
                              CFunc(proto, ptr.value), variants.value, e.baselineFeature, e.metadata));
  }

  /** The loader's loop over the overloads of one python name. */
  method BindOverloadsLoop(overloads: map<string, Entry>, lookup: Lookup)
    returns (r: Result<map<string, BoundEntry>, string>)
    ensures r.Success? <==> forall g :: g in overloads ==> Resolves(overloads[g], lookup)
    ensures r.Success? ==> r.value == map g | g in overloads :: BindEntry(overloads[g], lookup)
    ensures r.Failure? ==> lookup(r.error).None?
    ensures r.Failure? ==> exists g :: g in overloads && r.error in RecordSymbols(overloads[g])
  {
    var tmp: map<string, BoundEntry> := map[];
    var todo := overloads.Keys;
    while todo != {}
      invariant todo <= overloads.Keys
      invariant tmp.Keys == overloads.Keys - todo
      invariant forall g :: g in tmp ==> Resolves(overloads[g], lookup)
      invariant forall g :: g in tmp ==> tmp[g] == BindEntry(overloads[g], lookup)
      decreases todo
    {
      var g :| g in todo;
      var bound := BindEntryLoop(overloads[g], lookup);
      if bound.Failure? {
        return Failure(bound.error);
      }
      tmp := tmp[g := bound.value];
      todo := todo - {g};
    }
    return Success(tmp);
  }

  /** The loader's outer loop over `symbols`, as written: it binds every
      record as `BindEntry` does, or stops at a symbol the loader lacks. */
  method BindTableLoop(t: Table<Entry>, lookup: Lookup) returns (r: Result<Table<BoundEntry>, string>)
    ensures r.Success? <==> AllResolve(t, lookup)
    ensures r.Success? ==> r.value == BindAll(t, lookup)
    ensures r.Failure? ==> r.error in TableSymbols(t) && lookup(r.error).None?
  {
    var tmp: Table<BoundEntry> := map[];
    var todo := t.Keys;
    while todo != {}
      invariant todo <= t.Keys
      invariant tmp.Keys == t.Keys - todo
      invariant forall n, g :: n in tmp && g in t[n] ==> Resolves(t[n][g], lookup)
      invariant forall n :: n in tmp ==> tmp[n] == map g | g in t[n] :: BindEntry(t[n][g], lookup)
      decreases todo
    {
      var n :| n in todo;
      var bound := BindOverloadsLoop(t[n], lookup);
      if bound.Failure? {
        var g :| g in t[n] && bound.error in RecordSymbols(t[n][g]);
        assert bound.error in TableSymbols(t);
        return Failure(bound.error);
      }
      tmp := tmp[n := bound.value];
      todo := todo - {n};
    }
    return Success(tmp);
  }

  /** The loops as written agree with `Bind`: the same success condition,
      the same bound table, and an early stop only at a symbol that `Bind`
      reports as unresolved. */
  method BindAsWritten(t: Table<Entry>, lookup: Lookup) returns (r: Result<Table<BoundEntry>, string>)
    ensures r.Success? <==> Bind(t, lookup).Success?
    ensures r.Success? ==> Bind(t, lookup) == Success(r.value)
    ensures r.Failure? ==> Bind(t, lookup).Failure? && r.error in Bind(t, lookup).error.names
  {
    r := BindTableLoop(t, lookup);
  }
}

=== FILE: host.dfy ===
/** The collaborators the overlay talks to but does not implement: the loaded
    shared object's symbol table and the ctypes foreign-function layer. They
    appear here only as values and as function-typed parameters. */
module Host {
  import opened Wrappers

  /** A ctypes function pointer, as returned by attribute access on a
      `ctypes.CDLL`; `addr` is the machine address it points at. */
  datatype FnPtr = FnPtr(addr: nat)

  /** The host loader's symbol lookup: `Some` pointer when the loaded image
      exports the name, `None` when attribute access would raise. */
  type Lookup = string -> Option<FnPtr>

  /** `ctypes.cast(p, ctypes.c_void_p).value`: the integer address, and
      `None` for a null pointer. */
  function RawAddress(p: FnPtr): (r: Option<nat>)
    ensures r == None <==> p.addr == 0
    ensures r.Some? ==> r.value == p.addr && r.value > 0
  {
    if p.addr == 0 then None else Some(p.addr)
  }

  /** The ctypes function prototype obtained by evaluating a
      `CFUNCTYPE(...)` source string; kept opaque as the string it came from. */
  datatype Prototype = Prototype(text: string)

  /** A callable binding: a prototype applied to a function pointer. */
  datatype CFunc = CFunc(proto: Prototype, target: FnPtr)
}

=== FILE: loader.dfy ===
/** `main`, the body run when a PIXIE C-extension is imported: it adopts a
    specialized sibling module whose identity matches, and otherwise binds
    the packaged payload against the extension's own shared object. */
module Loader {
  import opened Wrappers
  import opened Host
  import opened Manifest
  import opened Binding
  import opened Specialization

  /** The terminal state the load reaches. */
  datatype LoadPath = SpecializedLoaded | RevertedToGeneric | GenericOnly

  /** The one warning `main` can emit itself, naming both modules. */
  datatype Warning = UuidMismatch(specializedModule: string, loadingModule: string)

  /** The warnings this `main` emits itself (not those of the imported
      module's own `main`), the path taken, and either the overlay written to
      `obj.__PIXIE__` or the exception that aborted the load. */
  datatype LoadResult = LoadResult(path: LoadPath, warnings: seq<Warning>, outcome: Result<Overlay, LoadError>)

  /** `importlib.import_module(name).__PIXIE__`, with `None` for `ImportError`. */
  type ModuleFinder = string -> Option<Overlay>

  /** The bytes `get_bitcode` copies out of memory, given the pointers of the
      size function and of the data function. */
  type BitcodeReader = (FnPtr, FnPtr) -> seq<bv8>

  function BitcodeSizeSymbol(moduleName: string): string
  {
    "get_bitcode_for_" + moduleName + "_size"
  }

  function BitcodeDataSymbol(moduleName: string): string
  {
    "get_bitcode_for_" + moduleName
  }

  /** `get_bitcode`: the size accessor is looked up before the data accessor. */
  function GetBitcode(obj: ModuleInfo, lookup: Lookup, read: BitcodeReader): (r: Result<seq<bv8>, LoadError>)
    ensures r.Success? <==> lookup(BitcodeSizeSymbol(obj.name)).Some? && lookup(BitcodeDataSymbol(obj.name)).Some?
    ensures r.Success? ==>
      r.value == read(lookup(BitcodeSizeSymbol(obj.name)).value, lookup(BitcodeDataSymbol(obj.name)).value)
    ensures r.Failure? ==> r.error.UnresolvedSymbols? && |r.error.names| == 1
    ensures r.Failure? ==> forall x :: x in r.error.names ==> lookup(x).None?
    ensures lookup(BitcodeSizeSymbol(obj.name)).None? ==>
      r == Failure(UnresolvedSymbols({BitcodeSizeSymbol(obj.name)}))
  {
    var size := lookup(BitcodeSizeSymbol(obj.name));
    if size.None? then Failure(UnresolvedSymbols({BitcodeSizeSymbol(obj.name)}))
    else
      var data := lookup(BitcodeDataSymbol(obj.name));
      if data.None? then Failure(UnresolvedSymbols({BitcodeDataSymbol(obj.name)}))
      else Success(read(size.value, data.value))
  }

  /** Some python name has at least one signature, so the binding loop body
      runs and needs `address_of_symbol`. */
  predicate HasOverloads(t: Table<Entry>)
  {
    exists n :: n in t && t[n] != map[]
  }

  /** The binding loop of the generic load gets through: `address_of_symbol`
      is present whenever the loop body runs, and every lookup succeeds. */
  predicate BindStepSucceeds(payload: Payload, lookup: Lookup)
  {
    && (HasOverloads(payload.pixie.symbols) ==> AddressOfSymbolFn in payload.assemblers)
    && AllResolve(payload.pixie.symbols, lookup)
  }

  /** The generic load: bind every record and variant, fetch the bitcode,
      attach the `specialize` closure; the identity, the specialized flag,
      the header and the linkage are kept from the payload. When several
      steps would fail, the error is that of the first one in source order:
      the `address_of_symbol` key, the symbol lookups, the `get_bitcode` key,
      the bitcode accessors, and last the `specialize` key. */
  function GenericLoad(payload: Payload, obj: ModuleInfo, lookup: Lookup, read: BitcodeReader): (r: Result<Overlay, LoadError>)
    ensures r.Success? <==>
      && (HasOverloads(payload.pixie.symbols) ==> AddressOfSymbolFn in payload.assemblers)
      && (forall n, g :: n in payload.pixie.symbols && g in payload.pixie.symbols[n] ==>
            Resolves(payload.pixie.symbols[n][g], lookup))
      && GetBitcodeFn in payload.assemblers
      && lookup(BitcodeSizeSymbol(obj.name)).Some? && lookup(BitcodeDataSymbol(obj.name)).Some?
      && SpecializeFn in payload.assemblers
    ensures r.Failure? && r.error.MissingAssembler? ==> r.error.name !in payload.assemblers
    ensures r.Failure? && r.error.UnresolvedSymbols? ==>
      r.error.names != {} && forall x :: x in r.error.names ==> lookup(x).None?
    ensures r.Success? ==> SameShape(payload.pixie.symbols, r.value.symbols)
    ensures r.Success? ==> forall n, g :: n in payload.pixie.symbols && g in payload.pixie.symbols[n] ==>
      BoundFrom(payload.pixie.symbols[n][g], r.value.symbols[n][g], lookup)
    ensures r.Success? ==>
      && r.value.uuid == payload.pixie.uuid
      && r.value.isSpecialized == payload.pixie.isSpecialized
      && r.value.cHeader == payload.pixie.cHeader
      && r.value.linkage == payload.pixie.linkage
      && r.value.specialize == Some(Specializer(obj))
      && r.value.bitcode == Some(read(lookup(BitcodeSizeSymbol(obj.name)).value, lookup(BitcodeDataSymbol(obj.name)).value))
    ensures HasOverloads(payload.pixie.symbols) && AddressOfSymbolFn !in payload.assemblers ==>
      r == Failure(MissingAssembler(AddressOfSymbolFn))
    ensures ((HasOverloads(payload.pixie.symbols) ==> AddressOfSymbolFn in payload.assemblers)
             && !AllResolve(payload.pixie.symbols, lookup)) ==>
      r == Failure(UnresolvedSymbols(Unresolved(payload.pixie.symbols, lookup)))
    ensures BindStepSucceeds(payload, lookup) && GetBitcodeFn !in payload.assemblers ==>
      r == Failure(MissingAssembler(GetBitcodeFn))
    ensures (BindStepSucceeds(payload, lookup) && GetBitcodeFn in payload.assemblers
             && GetBitcode(obj, lookup, read).Failure?) ==>
      r == Failure(GetBitcode(obj, lookup, read).error)
    ensures (BindStepSucceeds(payload, lookup) && GetBitcodeFn in payload.assemblers
             && GetBitcode(obj, lookup, read).Success? && SpecializeFn !in payload.assemblers) ==>
      r == Failure(MissingAssembler(SpecializeFn))
  {
    var pixie := payload.pixie;
    if HasOverloads(pixie.symbols) && AddressOfSymbolFn !in payload.assemblers then
      Failure(MissingAssembler(AddressOfSymbolFn))
    else match Bind(pixie.symbols, lookup)
      case Failure(e) => Failure(e)
      case Success(bound) =>
        if GetBitcodeFn !in payload.assemblers then Failure(MissingAssembler(GetBitcodeFn))
        else match GetBitcode(obj, lookup, read)
          case Failure(e) => Failure(e)
          case Success(bytes) =>
            if SpecializeFn !in payload.assemblers then Failure(MissingAssembler(SpecializeFn))
            else Success(PixieDict(bound, pixie.cHeader, pixie.linkage, Some(bytes), pixie.uuid,
                                   pixie.isSpecialized, Some(Specializer(obj))))
  }

  /** `main(PIXIE_payload, obj)`. */
  function Main(payload: Payload, obj: ModuleInfo, find: ModuleFinder, lookup: Lookup, read: BitcodeReader): (r: LoadResult)
    ensures var candidate := find(SpecializedName(obj.name));
      r.path == SpecializedLoaded <==> candidate.Some? && candidate.value.uuid == payload.pixie.uuid
    ensures var candidate := find(SpecializedName(obj.name));
      r.path == RevertedToGeneric <==> candidate.Some? && candidate.value.uuid != payload.pixie.uuid
    ensures r.path == SpecializedLoaded ==>
      && r.warnings == []
      && r.outcome == Success(find(SpecializedName(obj.name)).value.(isSpecialized := true))
    ensures r.path == RevertedToGeneric ==>
      r.warnings == [UuidMismatch(SpecializedName(obj.name), obj.name)]
    ensures r.path == GenericOnly ==> r.warnings == []
    ensures r.path != SpecializedLoaded ==> r.outcome == GenericLoad(payload, obj, lookup, read)
  {
    var name := SpecializedName(obj.name);
    match find(name)
    case Some(specialized) =>
      if payload.pixie.uuid == specialized.uuid then
        LoadResult(SpecializedLoaded, [], Success(specialized.(isSpecialized := true)))
      else
        LoadResult(RevertedToGeneric, [UuidMismatch(name, obj.name)], GenericLoad(payload, obj, lookup, read))
    case None =>
      LoadResult(GenericOnly, [], GenericLoad(payload, obj, lookup, read))
  }
}

=== FILE: manifest.dfy ===
/** The `__PIXIE__` dictionary of a PIXIE C-extension and the records it
    holds, before and after load-time binding, together with the two pure
    builders that create them (`add_variant`, `create_base_payload`). */
module Manifest {
  import opened Wrappers
  import opened Host

  /** python name -> signature string -> record */
  type Table<R> = map<string, map<string, R>>

  /** A signature record as packaged by `add_variant`: the ctypes prototype
      is still source text, and each feature variant maps to a symbol name. */
  datatype Entry = Entry(
    ctypesCfunctype: string,
    symbol: string,
    sourceModule: Option<string>,
    sourceFile: Option<string>,
    address: Option<nat>,
    cfunc: Option<CFunc>,
    featureVariants: map<string, string>,
    baselineFeature: string,
    metadata: Option<string>)

  /** A feature variant after binding: `{symbol, address, cfunc}`. The
      address is the function pointer itself, not its integer cast. */
  datatype VariantBinding = VariantBinding(symbol: string, address: FnPtr, cfunc: CFunc)

  /** A signature record after the binding pass of the loader. */
  datatype BoundEntry = BoundEntry(
    ctypesCfunctype: Prototype,
    symbol: string,
    sourceModule: Option<string>,
    sourceFile: Option<string>,
    address: Option<nat>,
    cfunc: CFunc,
    featureVariants: map<string, VariantBinding>,
    baselineFeature: string,
    metadata: Option<string>)

  /** The Python module object being initialised: `__name__` and `__file__`. */
  datatype ModuleInfo = ModuleInfo(name: string, file: string)

  /** The closure `specialize(obj)` stored under the `specialize` key. */
  datatype Specializer = Specializer(owner: ModuleInfo)

  /** The `__PIXIE__` dictionary, over packaged or bound records. The
      `specialize` key is absent (`None`) until a generic load adds it. */
  datatype PixieDict<R> = PixieDict(
    symbols: Table<R>,
    cHeader: seq<string>,
    linkage: Option<string>,
    bitcode: Option<seq<bv8>>,
    uuid: Option<string>,
    isSpecialized: bool,
    specialize: Option<Specializer>)

  /** What `main` writes into `obj.__PIXIE__`. */
  type Overlay = PixieDict<BoundEntry>

  /** The source text of one function of the overlay, as `inspect.getsource`
      would return it; only the name of the function it defines is kept. */
  datatype SourceText = SourceOf(definition: string)

  /** The whole payload: `__PIXIE__` and `__PIXIE_assemblers__`. */
  datatype Payload = Payload(pixie: PixieDict<Entry>, assemblers: map<string, SourceText>)

  /** Exceptions that abort a generic load before the overlay is written. */
  datatype LoadError =
    | MissingAssembler(name: string)            // KeyError on `__PIXIE_assemblers__`
    | UnresolvedSymbols(names: set<string>)     // AttributeError from the shared object

  const MainFn := "main"
  const GetBitcodeFn := "get_bitcode"
  const AddressOfSymbolFn := "address_of_symbol"
  const BootstrapFn := "bootstrap"
  const SpecializeFn := "specialize"

  /** The functions whose source `create_base_payload` ships as assemblers. */
  const AssemblerNames: set<string> :=
    {MainFn, GetBitcodeFn, AddressOfSymbolFn, BootstrapFn, SpecializeFn}

  /** The placeholder C header of a fresh payload. */
  const HeaderPlaceholder: seq<string> := ["<write it>"]

  /** `add_variant`: a packaged record with no address and no callable yet;
      an absent variant map becomes the empty map, everything else is copied. */
  function AddVariant(
    ctypesFuncString: string, rawSymbol: string, baseline: string,
    featureVariants: Option<map<string, string>>, sourceModule: Option<string>,
    sourceFile: Option<string>, metadata: Option<string>): (e: Entry)
    ensures e.address == None && e.cfunc == None
    ensures e.ctypesCfunctype == ctypesFuncString && e.symbol == rawSymbol
    ensures e.baselineFeature == baseline && e.sourceModule == sourceModule
    ensures e.sourceFile == sourceFile && e.metadata == metadata
    ensures featureVariants.None? ==> e.featureVariants == map[]
    ensures featureVariants.Some? ==> e.featureVariants == featureVariants.value
  {
    Entry(ctypesFuncString, rawSymbol, sourceModule, sourceFile, None, None,
          featureVariants.GetOr(map[]), baseline, metadata)
  }

  /** `create_base_payload`: an empty, unspecialized payload with no identity
      and no bitcode, carrying the source of every assembler function. */
  function CreateBasePayload(): (p: Payload)
    ensures p.pixie.symbols == map[]
    ensures p.pixie.uuid == None && p.pixie.bitcode == None && p.pixie.linkage == None
    ensures !p.pixie.isSpecialized && p.pixie.specialize == None
    ensures p.pixie.cHeader == HeaderPlaceholder
    ensures p.assemblers.Keys == AssemblerNames
    ensures forall name :: name in p.assemblers ==> p.assemblers[name] == SourceOf(name)
  {
    Payload(
      PixieDict(map[], HeaderPlaceholder, None, None, None, false, None),
      map name | name in AssemblerNames :: SourceOf(name))
  }
}

=== FILE: posixpath.dfy ===
/** The directory part of a POSIX path, `os.path.split(path)[0]`, which the
    specialization request uses as its output directory. */
module PosixPath {

  predicate AllSlashes(s: string)
  {
    forall k :: 0 <= k < |s| ==> s[k] == '/'
  }

  /** `path.rfind('/') + 1`: the length of the prefix ending at the last slash. */
  function LastSlashEnd(p: string): (i: nat)
    ensures i <= |p|
    ensures i > 0 ==> p[i - 1] == '/'
    ensures forall k :: i <= k < |p| ==> p[k] != '/'
  {
    if |p| == 0 then 0
    else if p[|p| - 1] == '/' then |p|
    else LastSlashEnd(p[..|p| - 1])
  }

  /** `s.rstrip('/')` */
  function StripTrailingSlashes(s: string): (r: string)
    ensures |r| <= |s| && r == s[..|r|]
    ensures forall k :: |r| <= k < |s| ==> s[k] == '/'
    ensures r == [] || r[|r| - 1] != '/'
  {
    if |s| > 0 && s[|s| - 1] == '/' then
      var r := StripTrailingSlashes(s[..|s| - 1]);
      assert s[..|s| - 1][..|r|] == s[..|r|];
      r
    else
      s
  }

  /** `r` is the head of `p`: a prefix of everything up to the last slash
      that differs from it only by trailing slashes, that does not itself end
      in a slash unless it is only slashes, and that is the whole prefix when
      that prefix is only slashes. */
  ghost predicate IsHead(p: string, r: string)
  {
    var i := LastSlashEnd(p);
    && |r| <= i && r == p[..|r|]
    && AllSlashes(p[|r|..i])
    && (r == [] || AllSlashes(r) || r[|r| - 1] != '/')
    && (AllSlashes(p[..i]) ==> r == p[..i])
  }

  /** `IsHead` admits exactly one head per path. */
  lemma {:induction false} HeadIsUnique(p: string, r1: string, r2: string)
    requires IsHead(p, r1) && IsHead(p, r2)
    ensures r1 == r2
  {
    var i := LastSlashEnd(p);
    if !AllSlashes(p[..i]) {
      HeadNotSlashesOnly(p, r1);
      HeadNotSlashesOnly(p, r2);
    }
  }

  /** When the prefix up to the last slash is not only slashes, its head is
      non-empty and ends in a character other than a slash. */
  lemma HeadNotSlashesOnly(p: string, r: string)
    requires IsHead(p, r) && !AllSlashes(p[..LastSlashEnd(p)])
    ensures r != [] && r[|r| - 1] != '/'
  {
  }

  /** `os.path.split(p)[0]` under POSIX rules: everything up to the last
      slash, with trailing slashes removed unless the head is only slashes.
      The head is a prefix of the path; it is empty exactly when the path
      has no slash; it ends in a slash only when it is all slashes; and what
      follows it is a run of slashes and then a slash-free final component. */
  function DirName(p: string): (r: string)
    ensures |r| <= |p| && r == p[..|r|]
    ensures r != [] <==> '/' in p
    ensures r == [] || AllSlashes(r) || r[|r| - 1] != '/'
    ensures forall k, m :: |r| <= k < m < |p| && p[k] != '/' ==> p[m] != '/'
    ensures |r| <= LastSlashEnd(p) && AllSlashes(p[|r|..LastSlashEnd(p)])
    ensures AllSlashes(p[..LastSlashEnd(p)]) ==> r == p[..LastSlashEnd(p)]
    ensures IsHead(p, r)
  {
    var i := LastSlashEnd(p);
    var head := p[..i];
    assert '/' in p ==> i > 0 by {
      if '/' in p {
        var k :| 0 <= k < |p| && p[k] == '/';
      }
    }
    assert i > 0 ==> '/' in p by {
      if i > 0 {
        assert p[i - 1] == '/';
      }
    }
    if head != [] && !AllSlashes(head) then
      var r := StripTrailingSlashes(head);
      assert r != [] by {
        var k :| 0 <= k < |head| && head[k] != '/';
        assert k < |r|;
      }
      assert head[..|r|] == p[..|r|];
      r
    else
      head
  }
}

=== FILE: properties.dfy ===
/** Properties that relate several operations: the load decision against
    itself, the builders against the loader, and the specialization request
    against the load that later consumes its output. */
module OverlayProperties {
  import opened Wrappers
  import opened Host
  import opened Manifest
  import opened Binding
  import opened Specialization
  import opened Loader

  /** A module finder for which no specialized module exists. */
  function NoModules(name: string): Option<Overlay>
  {
    None
  }

  /** The export table a packaged table promises: the same triples that
      `ExportEntries` reads off a bound table, read off the packaged records. */
  function PackagedExports(t: Table<Entry>): set<ExportEntry>
  {
    Triples(t, (e: Entry) => e.symbol)
  }

  /** A stale specialized module costs one warning of this `main` and
      nothing else: the
      overlay (or the exception) is the one produced when no specialized
      module exists at all. */
  lemma MismatchBehavesAsAbsent(payload: Payload, obj: ModuleInfo, find: ModuleFinder, lookup: Lookup, read: BitcodeReader)
    requires find(SpecializedName(obj.name)).Some?
    requires find(SpecializedName(obj.name)).value.uuid != payload.pixie.uuid
    ensures Main(payload, obj, find, lookup, read).outcome == Main(payload, obj, NoModules, lookup, read).outcome
    ensures |Main(payload, obj, find, lookup, read).warnings| == 1
    ensures Main(payload, obj, NoModules, lookup, read).warnings == []
  {
  }

  /** The loader looks for exactly one module name: finders that agree on
      `<module>_pixie_specialized` give the same load. */
  lemma MainConsultsOnlySpecializedName(
    payload: Payload, obj: ModuleInfo, find1: ModuleFinder, find2: ModuleFinder, lookup: Lookup, read: BitcodeReader)
    requires find1(SpecializedName(obj.name)) == find2(SpecializedName(obj.name))
    ensures Main(payload, obj, find1, lookup, read) == Main(payload, obj, find2, lookup, read)
  {
  }

  /** Binding keeps every symbol name, so the export table a specialization
      request copies from a bound table is the one the payload packaged. */
  lemma {:induction false} ExportsNamePackagedSymbols(t: Table<Entry>, lookup: Lookup)
    requires Bind(t, lookup).Success?
    ensures ExportEntries(Bind(t, lookup).value) == PackagedExports(t)
  {
    var b := Bind(t, lookup).value;
    forall e | e in PackagedExports(t)
      ensures e in ExportEntries(b)
    {
      var n, g :| n in t && g in t[n] && e == ExportEntry(n, t[n][g].symbol, g);
      assert BoundFrom(t[n][g], b[n][g], lookup);
    }
    forall e | e in ExportEntries(b)
      ensures e in PackagedExports(t)
    {
      var n, g := e.pythonName, e.signature;
      assert BoundFrom(t[n][g], b[n][g], lookup);
    }
  }

  /** After a generic load, `specialize` asks for a library under exactly the
      name the loader searches, carrying the payload's identity and the
      payload's export table unchanged. */
  lemma GenericOverlayRequestsMatchingLibrary(
    payload: Payload, obj: ModuleInfo, find: ModuleFinder, lookup: Lookup, read: BitcodeReader,
    baselineCpu: string, baselineFeatures: Option<seq<string>>, hostCpu: string)
    requires Main(payload, obj, find, lookup, read).path != SpecializedLoaded
    requires Main(payload, obj, find, lookup, read).outcome.Success?
    ensures var req := InvokeSpecialize(Main(payload, obj, find, lookup, read).outcome.value, baselineCpu, baselineFeatures, hostCpu);
      && req.Some?
      && req.value.libraryName == SpecializedName(obj.name)
      && req.value.uuid == payload.pixie.uuid
      && req.value.exportConfiguration.entries == PackagedExports(payload.pixie.symbols)
  {
    var overlay := Main(payload, obj, find, lookup, read).outcome.value;
    assert GenericLoad(payload, obj, lookup, read) == Success(overlay);
    assert Bind(payload.pixie.symbols, lookup).Success?;
    assert overlay.symbols == Bind(payload.pixie.symbols, lookup).value by {
      var b := Bind(payload.pixie.symbols, lookup).value;
      var t := payload.pixie.symbols;
      forall n | n in t
        ensures overlay.symbols[n] == b[n]
      {
        forall g | g in t[n]
          ensures overlay.symbols[n][g] == b[n][g]
        {
          BoundFromIsFunctional(t[n][g], overlay.symbols[n][g], b[n][g], lookup);
        }
      }
    }
    ExportsNamePackagedSymbols(payload.pixie.symbols, lookup);
  }

  /** The round trip of specialization: once the library a generic overlay
      requests exists and carries the identity the request passed on, the
      next import of the same payload adopts it, with no warning from this
      `main`. */
  lemma SpecializationIsAdopted(
    payload: Payload, obj: ModuleInfo, find: ModuleFinder, lookup: Lookup, read: BitcodeReader,
    baselineCpu: string, baselineFeatures: Option<seq<string>>, hostCpu: string, later: ModuleFinder)
    requires Main(payload, obj, find, lookup, read).path != SpecializedLoaded
    requires Main(payload, obj, find, lookup, read).outcome.Success?
    requires var req := InvokeSpecialize(Main(payload, obj, find, lookup, read).outcome.value, baselineCpu, baselineFeatures, hostCpu);
      req.Some? && later(req.value.libraryName).Some? && later(req.value.libraryName).value.uuid == req.value.uuid
    ensures Main(payload, obj, later, lookup, read).path == SpecializedLoaded
    ensures Main(payload, obj, later, lookup, read).warnings == []
    ensures Main(payload, obj, later, lookup, read).outcome.Success?
    ensures Main(payload, obj, later, lookup, read).outcome.value.isSpecialized
  {
    GenericOverlayRequestsMatchingLibrary(payload, obj, find, lookup, read, baselineCpu, baselineFeatures, hostCpu);
  }

  /** After adoption, the overlay's `specialize` entry is the specialized
      module's own closure; when that module bound itself under its own name,
      a further request names `<module>_pixie_specialized_pixie_specialized`,
      which is not the name the loader searches for `obj`. */
  lemma RespecializingAdoptedOverlay(
    payload: Payload, obj: ModuleInfo, find: ModuleFinder, lookup: Lookup, read: BitcodeReader,
    specializedFile: string, baselineCpu: string, baselineFeatures: Option<seq<string>>, hostCpu: string)
    requires find(SpecializedName(obj.name)).Some?
    requires find(SpecializedName(obj.name)).value.uuid == payload.pixie.uuid
    requires find(SpecializedName(obj.name)).value.specialize
          == Some(Specializer(ModuleInfo(SpecializedName(obj.name), specializedFile)))
    ensures var req := InvokeSpecialize(Main(payload, obj, find, lookup, read).outcome.value, baselineCpu, baselineFeatures, hostCpu);
      && req.Some?
      && req.value.libraryName == SpecializedName(SpecializedName(obj.name))
      && req.value.libraryName != SpecializedName(obj.name)
  {
  }

  /** A freshly created payload loads whenever the bitcode accessors exist;
      the overlay is empty, unstamped and unspecialized. */
  lemma BasePayloadLoads(obj: ModuleInfo, lookup: Lookup, read: BitcodeReader)
    ensures var r := GenericLoad(CreateBasePayload(), obj, lookup, read);
      && (r.Success? <==> lookup(BitcodeSizeSymbol(obj.name)).Some? && lookup(BitcodeDataSymbol(obj.name)).Some?)
      && (r.Success? ==> r.value.symbols == map[] && r.value.uuid == None && !r.value.isSpecialized)
  {
    var p := CreateBasePayload();
    assert !HasOverloads(p.pixie.symbols);
    assert GetBitcodeFn in p.assemblers && SpecializeFn in p.assemblers;
  }

  /** Identities are compared with `==`, so an unstamped payload (`uuid`
      None) adopts any specialized module that is unstamped too. */
  lemma UnstampedPayloadAdoptsUnstamped(obj: ModuleInfo, find: ModuleFinder, lookup: Lookup, read: BitcodeReader)
    requires find(SpecializedName(obj.name)).Some?
    requires find(SpecializedName(obj.name)).value.uuid == None
    ensures Main(CreateBasePayload(), obj, find, lookup, read).path == SpecializedLoaded
  {
  }

  /** A record built by `add_variant` binds to a record that keeps every
      packaged field, takes its address from the loader and keeps the
      variant keys it was given (none when none were given). */
  lemma AddVariantBinds(
    ctypesFuncString: string, rawSymbol: string, baseline: string,
    featureVariants: Option<map<string, string>>, sourceModule: Option<string>,
    sourceFile: Option<string>, metadata: Option<string>, lookup: Lookup)
    requires lookup(rawSymbol).Some?
    requires featureVariants.Some? ==>
      forall v :: v in featureVariants.value ==> lookup(featureVariants.value[v]).Some?
    ensures var b := BindEntry(AddVariant(ctypesFuncString, rawSymbol, baseline, featureVariants, sourceModule, sourceFile, metadata), lookup);
      && b.symbol == rawSymbol && b.baselineFeature == baseline
      && b.sourceModule == sourceModule && b.sourceFile == sourceFile && b.metadata == metadata
      && b.ctypesCfunctype == Prototype(ctypesFuncString)
      && b.address == RawAddress(lookup(rawSymbol).value)
      && b.cfunc == CFunc(Prototype(ctypesFuncString), lookup(rawSymbol).value)
      && (featureVariants.None? ==> b.featureVariants == map[])
      && (featureVariants.Some? ==> b.featureVariants.Keys == featureVariants.value.Keys)
  {
  }
}

=== FILE: specialization.dfy ===
/** The request the `specialize` closure hands to the PIXIE compiler: the
    embedded bitcode, the original export table, the resolved target and the
    payload's identity, under the conventional specialized library name. */
module Specialization {
  import opened Wrappers
  import opened Manifest
  import PosixPath

  /** The `baseline_cpu` value that asks for the host's own CPU name. */
  const HostCpu := "host"

  /** Suffix of the specialized library's module name. */
  const SpecializedSuffix := "_pixie_specialized"

  /** The single naming convention shared by the request builder and the
      loader's search for a specialized module. */
  function SpecializedName(moduleName: string): (r: string)
    ensures |moduleName| < |r| && r[..|moduleName|] == moduleName
    ensures r[|moduleName|..] == SpecializedSuffix
    ensures r != moduleName
  {
    moduleName + SpecializedSuffix
  }

  datatype Target = Target(cpu: string, features: seq<string>)

  /** Target resolution: `'host'` becomes the host CPU name and any other CPU
      name passes through; absent features become the empty tuple. */
  function ResolveTarget(baselineCpu: string, baselineFeatures: Option<seq<string>>, hostCpu: string): Target
  {
    Target(if baselineCpu == HostCpu then hostCpu else baselineCpu, baselineFeatures.GetOr([]))
  }

  /** One `export_config.add_symbol(python_name, symbol_name, signature)`. */
  datatype ExportEntry = ExportEntry(pythonName: string, symbolName: string, signature: string)

  datatype ExportConfiguration = ExportConfiguration(kind: string, entries: set<ExportEntry>)

  const EmbedDso := "embed_dso"

  /** The only translation unit of the request: the embedded bitcode. */
  datatype TranslationUnit = TranslationUnit(name: string, bitcode: Option<seq<bv8>>)

  const SelfUnit := "self"

  /** The arguments of `PIXIECompiler(...)`; the compilation itself is not modelled. */
  datatype CompileRequest = CompileRequest(
    libraryName: string,
    translationUnits: seq<TranslationUnit>,
    exportConfiguration: ExportConfiguration,
    baselineCpu: string,
    baselineFeatures: seq<string>,
    targetsFeatures: seq<string>,
    pythonCext: bool,
    uuid: Option<string>,
    outputDir: string)

  /** The (python name, symbol, signature) triples of any table, given how
      to read a record's symbol name. */
  function Triples<R>(t: Table<R>, symbolOf: R -> string): set<ExportEntry>
  {
    set n, g | n in t && g in t[n] :: ExportEntry(n, symbolOf(t[n][g]), g)
  }

  /** The export table copied out of the loaded `symbols`: exactly one entry
      per (python name, signature) pair, naming that record's symbol. */
  function ExportEntries(t: Table<BoundEntry>): (es: set<ExportEntry>)
    ensures forall n, g :: n in t && g in t[n] ==> ExportEntry(n, t[n][g].symbol, g) in es
    ensures forall e :: e in es ==>
      e.pythonName in t && e.signature in t[e.pythonName]
      && e.symbolName == t[e.pythonName][e.signature].symbol
    ensures forall e1, e2 ::
      (e1 in es && e2 in es && e1.pythonName == e2.pythonName && e1.signature == e2.signature) ==> e1 == e2
  {
    Triples(t, (b: BoundEntry) => b.symbol)
  }

  /** `specialize(obj)(baseline_cpu, baseline_features)`, where `s` is the
      closure's module and `current` is that module's `__PIXIE__` at call time. */
  function SpecializeRequest(
    s: Specializer, current: Overlay, baselineCpu: string,
    baselineFeatures: Option<seq<string>>, hostCpu: string): (req: CompileRequest)
    ensures req.libraryName == SpecializedName(s.owner.name)
    ensures req.uuid == current.uuid
    ensures req.translationUnits == [TranslationUnit(SelfUnit, current.bitcode)]
    ensures req.exportConfiguration.kind == EmbedDso
    ensures req.exportConfiguration.entries == ExportEntries(current.symbols)
    ensures req.targetsFeatures == [] && req.pythonCext
    ensures req.baselineCpu == ResolveTarget(baselineCpu, baselineFeatures, hostCpu).cpu
    ensures req.baselineFeatures == ResolveTarget(baselineCpu, baselineFeatures, hostCpu).features
    ensures req.outputDir == PosixPath.DirName(s.owner.file)
  {
    var target := ResolveTarget(baselineCpu, baselineFeatures, hostCpu);
    CompileRequest(
      SpecializedName(s.owner.name),
      [TranslationUnit(SelfUnit, current.bitcode)],
      ExportConfiguration(EmbedDso, ExportEntries(current.symbols)),
      target.cpu, target.features, [], true, current.uuid,
      PosixPath.DirName(s.owner.file))
  }

  /** Calling `obj.__PIXIE__['specialize'](...)` on a loaded overlay; the key
      is missing (`None`) on an overlay that no generic load completed. The
      closure's defaults are `baseline_cpu='host'` and `baseline_features=None`,
      so `specialize()` with no arguments is
      `InvokeSpecialize(overlay, HostCpu, None, hostCpu)`. */
  function InvokeSpecialize(
    overlay: Overlay, baselineCpu: string, baselineFeatures: Option<seq<string>>,
    hostCpu: string): (r: Option<CompileRequest>)
    ensures r.Some? <==> overlay.specialize.Some?
    ensures r.Some? ==> r.value.uuid == overlay.uuid
    ensures r.Some? ==> r.value.libraryName == SpecializedName(overlay.specialize.value.owner.name)
  {
    match overlay.specialize
    case None => None
    case Some(s) => Some(SpecializeRequest(s, overlay, baselineCpu, baselineFeatures, hostCpu))
  }

  /** Resolution leaves an explicit target alone: resolving an already
      resolved, non-`'host'` target with its features given yields it again,
      whatever the host is. */
  lemma ResolveTargetIsStable(baselineCpu: string, baselineFeatures: Option<seq<string>>, hostCpu: string, otherHost: string)
    ensures var t := ResolveTarget(baselineCpu, baselineFeatures, hostCpu);
      t.cpu != HostCpu ==> ResolveTarget(t.cpu, Some(t.features), otherHost) == t
  {
  }

  /** Only `'host'` consults the host: any other CPU name resolves the same on
      every machine, and the features never depend on the host. */
  lemma ResolveTargetHostIndependence(baselineCpu: string, baselineFeatures: Option<seq<string>>, host1: string, host2: string)
    ensures ResolveTarget(baselineCpu, baselineFeatures, host1).features
         == ResolveTarget(baselineCpu, baselineFeatures, host2).features
    ensures baselineCpu != HostCpu ==>
      ResolveTarget(baselineCpu, baselineFeatures, host1) == ResolveTarget(baselineCpu, baselineFeatures, host2)
    ensures baselineCpu == HostCpu ==>
      ResolveTarget(baselineCpu, baselineFeatures, host1).cpu == host1
    ensures baselineCpu != HostCpu ==> ResolveTarget(baselineCpu, baselineFeatures, host1).cpu == baselineCpu
    ensures baselineFeatures == None ==> ResolveTarget(baselineCpu, baselineFeatures, host1).features == []
    ensures baselineFeatures.Some? ==> ResolveTarget(baselineCpu, baselineFeatures, host1).features == baselineFeatures.value
  {
  }

  /** Different module names never share a specialized library name. */
  lemma SpecializedNameInjective(a: string, b: string)
    requires SpecializedName(a) == SpecializedName(b)
    ensures a == b
  {
    assert a == SpecializedName(a)[..|a|];
    assert b == SpecializedName(b)[..|b|];
  }
}

=== FILE: wrappers.dfy ===
/** Option and Result, used throughout the model: Python's `None`
    becomes `Option.None`, and a raised exception becomes `Result.Failure`. */
module Wrappers {

  datatype Option<+T> = None | Some(value: T) {

    /** The value, or `default` when there is none. */
    function GetOr(default: T): T
    {
      match this
      case Some(v) => v
      case None => default
    }
  }

  datatype Result<+T, +E> = Success(value: T) | Failure(error: E)
}
